=== FILE: README.md ===
# Serverless todo backend: authorizer and ownership-gated handlers

This project models the parts of the serverless todo backend whose behaviour can be stated on its own:

- **The bearer-token custom authorizer.** It parses the `Authorization` header using the "Bearer" scheme of RFC 6750 section 2.1, matched in any letter case. It picks the signing key from the identity provider's JSON Web Key set (RFC 7517 sections 4.1, 4.2, 4.5 and 4.7). It re-wraps that key's `x5c[0]` certificate as PEM (RFC 7468 section 2). Finally it maps the verification result to an IAM Allow or Deny policy.
- **The business-logic layer.** `createTodo` builds a new item with fixed defaults. `getTodos` delegates to the data layer.
- **Three HTTP handlers that mutate an item only after an ownership check:** `updateTodo`, `deleteTodo` and `generateUploadUrl`.

The model is functional. Strings are `seq<char>`. The key set is a sequence of `Jwk` records. The table is an immutable `map<(UserId, TodoId), TodoItem>`. Each handler is a pure function from the table and the request to a `Run`, which holds:
- the outcome (a response, or a thrown exception);
- the new table;
- the trace of business-logic calls, in the order they were made.

Modules:
- `Wrappers`: the `Option` and `Result` types.
- `Strings`: the JavaScript `toLowerCase`, `split` and `join`, plus round-trip lemmas.
- `Pem`: the regular expression `/.{1,64}/g` and `certificateToPEM`.
- `Jwks`: JWK records and the signing-key filter.
- `Authorizer`: `getToken`, `verifyToken` and `handler`.
- `Todo`: items, the table, `createTodo` and `getTodos`.
- `Handlers`: the three gated handlers.

Inputs and oracles stand in for the outside world:
- **Key-set fetch (Axios).** The fetched key list is the input `jwks: Option<seq<Jwk>>`. `None` means the response, its `data` or its `keys` member is missing.
- **`jsonwebtoken.decode`.** This is the function parameter `decode`. It returns `None` where the library returns `null`.
- **`jsonwebtoken.verify` with RS256.** This is the boolean oracle `signatureOk(token, pem)`.
- **`uuid.v4()` and `new Date().toISOString()`.** These are the parameters `todoId` and `now` of `CreateTodo`.
- **Pre-signed S3 URL.** This is the function `uploadUrlFor(todoId)`.
- **`isValidTodoItem`.** This is membership of `(userId, todoId)` in the table.
- **Other store operations.** `updateTodo`, `deleteTodo` and `updateAttachmentUrl` are function parameters from the table to `Option` of a new table, where `None` is a rejected promise. Their bodies are not part of this model. Where a property needs them to touch only their own item, that condition is a named hypothesis (`UpdateIsLocal` or `KeyedOpIsLocal`), not an assumed implementation.
- **`getUserId`.** The caller's user id is an input.

Behaviour of the code worth knowing, all of it stated in the model:
- **Header parsing.** The scheme is accepted in any letter case. The token runs from index 7 to the next space or the end of the string, and it can be empty. Any further space-separated fields are silently dropped.
- **`kid` matching.** The key filter compares `kid` with strict equality on possibly-absent values. So a key with no `kid` matches a token whose header has no `kid`.
- **A `null` decoded token.** Here the filter throws only when it reaches a key whose `use` is `"sig"` and whose `kty` is `"RSA"`. Otherwise verification fails with "no signing key". Both paths end in Deny.
- **Delete is not idempotent at the handler level.** The ownership check comes first. So once the item is gone, a second delete answers 404 (`SecondDeleteIsNotFound`).
- **The attachment write.** `updateAttachmentUrl(todoId, userId)` is called after the URL is issued, and it is not given the URL. If that write fails, the handler throws and the client receives no URL.
- **Failing store operations.** A rejected `updateTodo`, `deleteTodo` or `updateAttachmentUrl` makes the handler throw. The model's store operations return `None` for that case, and the handler's outcome is then `Threw`.

## Model

| member | source | states |
|---|---|---|
| Strings.Split | backend/src/lambda/auth/auth0Authorizer.ts:74 | `split(' ')` returns at least one field; no field contains the separator; joining the fields with the separator gives back the input |
| Strings.SplitJoin | backend/src/lambda/auth/auth0Authorizer.ts:74 | splitting a join of separator-free fields gives back exactly those fields (the inverse of `Split`) |
| Authorizer.FoldedPrefixIsScheme | backend/src/lambda/auth/auth0Authorizer.ts:71-72 | lower-casing the header (`Strings.ToLower`) and testing for the prefix `"bearer "` succeeds exactly when the first seven characters fold, one by one, to `"bearer "` |
| Strings.ToLower | backend/src/lambda/auth/auth0Authorizer.ts:71 | `toLowerCase` keeps the length and folds each character on its own; what this means for the source's single use is stated by `Authorizer.FoldedPrefixIsScheme` |
| Strings.ToLowerIdempotent | backend/src/lambda/auth/auth0Authorizer.ts:71 | `toLowerCase` leaves no capital `A`..`Z` in its result, so lower-casing twice gives the same string as lower-casing once; together with `Authorizer.FoldedPrefixIsScheme`, this is what the project states about `Strings.ToLower` |
| Strings.Join | backend/src/lambda/auth/auth0Authorizer.ts:82 | `join` of no fields is empty; otherwise the result has the total length of the fields plus one separator between each pair, and starts with the first field |
| Pem.MatchLinesBreakAtTerminator | backend/src/lambda/auth/auth0Authorizer.ts:82 | no match spans a line terminator: the matches of `a + terminator + b` are the matches of `a` followed by those of `b` |
| Todo.PutItem | backend/src/dataLayer/todoAccess.ts:27-34 | the put stores the item under its (userId, todoId) key, returns exactly the item it was given, and leaves every other item as it was |
| Todo.QueryByUser | backend/src/dataLayer/todoAccess.ts:14-25 | the query on the partition key returns exactly the items stored under that user id, in a table that has settled and fits in one result page |
| Handlers.IsValid | backend/src/lambda/http/updateTodo.ts:17 | in a well-formed table, the gate holds exactly when the caller's own list contains an item with that todo id |
| Authorizer.GetToken | backend/src/lambda/auth/auth0Authorizer.ts:68-78 | a missing or empty header fails with "no authentication header"; a header whose first 7 characters do not fold to `"bearer "` fails with "invalid header"; otherwise the token is the space-free text that starts at index 7 and ends at the next space or the end of the string |
| Authorizer.BearerFieldsSplit | backend/src/lambda/auth/auth0Authorizer.ts:74-77 | with the bearer scheme in place, `split(' ')` has at least two fields, and field 1 is the text from index 7 up to the next space or the end |
| Authorizer.SchemeIsCaseInsensitive | backend/src/lambda/auth/auth0Authorizer.ts:71-72 | "Bearer", "BEARER" and "bearer" followed by a space-free token all yield exactly that token |
| Authorizer.BearerHeaderYieldsToken | backend/src/lambda/auth/auth0Authorizer.ts:71-77 | any 7-character scheme that lower-cases to `"bearer "`, followed by a space-free token, yields that token |
| Pem.MatchLines | backend/src/lambda/auth/auth0Authorizer.ts:82 | the matches of `/.{1,64}/g` are 1..64 characters long, contain no line terminator, and concatenate to the input with its line terminators removed |
| Pem.MatchLinesOfPlain | backend/src/lambda/auth/auth0Authorizer.ts:82 | on text with no line terminator, the matches concatenate back to the input; there are none exactly when the input is empty; every match except the last is exactly 64 characters |
| Pem.CertificateToPEM | backend/src/lambda/auth/auth0Authorizer.ts:81-85 | fails (match returns `null`) exactly when the certificate has no character other than line terminators; otherwise the output starts with `-----BEGIN CERTIFICATE-----\n` and ends with `\n-----END CERTIFICATE-----\n` |
| Pem.PemBodyLines | backend/src/lambda/auth/auth0Authorizer.ts:82-83 | for a non-empty certificate without line terminators, the PEM body splits at newlines into lines of 1..64 characters, all but the last exactly 64, that concatenate back to the certificate |
| Pem.PemRoundTrip | backend/src/lambda/auth/auth0Authorizer.ts:81-85 | stripping the BEGIN/END framing and the newlines from the PEM of such a certificate gives the certificate back |
| Jwks.FilterSigningKeys | backend/src/lambda/auth/auth0Authorizer.ts:61 | with a decoded token, the filter keeps exactly the keys of the list with `use` "sig", `kty` "RSA", an equal `kid` and a non-empty `x5c`; with a `null` token it throws exactly when some key has `use` "sig" and `kty` "RSA", and otherwise returns nothing |
| Jwks.FirstSigningKey | backend/src/lambda/auth/auth0Authorizer.ts:61-63 | the index returned is of a key that passes the filter, and no earlier key passes; `None` means no key passes |
| Jwks.FilterHeadIsFirstSigningKey | backend/src/lambda/auth/auth0Authorizer.ts:61-63 | `signingKeys[0]` is the first key in list order that passes the filter, and the filtered list is empty exactly when no key passes |
| Authorizer.VerifyToken | backend/src/lambda/auth/auth0Authorizer.ts:54-66 | a header error is reported before anything else, whatever the key set; a missing key set fails with "unable to fetch"; an empty key list fails with "invalid JWKS"; on success the token decodes and the result is its payload |
| Authorizer.VerifyTokenSucceedsIff | backend/src/lambda/auth/auth0Authorizer.ts:54-66 | verification succeeds exactly when all of these hold: the header is well formed; the key list is present and non-empty; the token decodes; some key passes the filter; the PEM of `x5c[0]` of the first such key exists; and the signature checks against that PEM |
| Authorizer.NoSigningKeyDenies | backend/src/lambda/auth/auth0Authorizer.ts:61-62 | a key list in which no key passes the filter for the decoded token's `kid` always makes verification fail, even when it holds RSA signature keys with other `kid`s |
| Authorizer.Handler | backend/src/lambda/auth/auth0Authorizer.ts:14-52 | the policy always has version `2012-10-17` and one statement with action `execute-api:Invoke` and resource `*`; the effect is Allow exactly when verification succeeds, and then the principal is the token's `sub`; otherwise the principal is `user` |
| Authorizer.MalformedHeaderDenied | backend/src/lambda/auth/auth0Authorizer.ts:35-51 | a missing header, or one without the bearer scheme, gets the Deny policy for principal `user`, whatever the key set and oracles |
| Todo.CreateTodo | backend/src/businessLogic/todo.ts:16-30 | the new item has the caller's user id, the generated id, the given clock value, the request's name and due date, `done == false` and no attachment; it is stored under its key, is the value returned, and no other item changes |
| Todo.CreateTodoPreservesWellFormed | backend/src/businessLogic/todo.ts:22-29 | creating an item keeps every item stored under its own (userId, todoId) key |
| Todo.GetTodos | backend/src/businessLogic/todo.ts:11-14 | returns exactly the items stored under the caller's user id, so in a well-formed table every listed item has the caller's user id |
| Todo.CreatedItemListedOnlyForOwner | backend/src/businessLogic/todo.ts:11-30 | an item created by one user appears in that user's list and in no other user's list |
| Handlers.UpdateHandler | backend/src/lambda/http/updateTodo.ts:12-32 | an unparsable body throws before any call is made; a failed ownership check returns 404 `Unable to fetch todo item` and leaves the table unchanged; otherwise `updateTodo` is called once with the parsed body and the checked ids, and the response is 204 with a null body, or the handler throws if the update is rejected |
| Handlers.DeleteHandler | backend/src/lambda/http/deleteTodo.ts:11-30 | a failed ownership check returns 404 `Unable to fetch todo item`, calls nothing else and leaves the table unchanged; otherwise `deleteTodo` is called once with the checked ids, and the response is 204 with a null body, or the handler throws if the delete is rejected |
| Handlers.UploadUrlHandler | backend/src/lambda/http/generateUploadUrl.ts:11-32 | a failed ownership check returns 404, issues no URL and writes nothing; otherwise the URL for the path `todoId` is issued before `updateAttachmentUrl(todoId, userId)`, and the response is 201 carrying exactly that URL, or the handler throws if the attachment write is rejected |
| Handlers.HandlersAreGated | backend/src/lambda/http/updateTodo.ts:17-27 | for all three handlers, the ownership check is the first call and every later call targets the checked item; a failed check leaves the table unchanged, makes no further call and returns the generic 404; the same gate is at deleteTodo.ts:15-25 and generateUploadUrl.ts:14-25 |
| Handlers.ParseFailureIgnoresOwnership | backend/src/lambda/http/updateTodo.ts:16-17 | an unparsable update body gives the same outcome whoever owns the item, and no business-logic call is made |
| Handlers.HandlersTouchOnlyTheCallersItem | backend/src/lambda/http/deleteTodo.ts:13-25 | if every successful store operation touches only its own key, then no handler changes, adds or removes any item other than (caller, `todoId`) |
| Handlers.ForeignRequestRejected | backend/src/lambda/http/updateTodo.ts:14-26 | when todo ids are unique across users, a user asking to update, delete or attach to another user's item gets 404, and the table is unchanged; the same gate is at deleteTodo.ts:15-24 and generateUploadUrl.ts:14-23 |
| Handlers.SecondDeleteIsNotFound | backend/src/lambda/http/deleteTodo.ts:15-29 | if the delete operation succeeds and removes the item, the first delete returns 204 and a second delete of the same item returns 404 |

## Left out

- The key-set HTTP fetch (Axios) is I/O. Its result is an input. Network errors count as a missing key set, which also ends in Deny.
- `jsonwebtoken.decode` and `jsonwebtoken.verify` (RS256 signature, expiry and format checks) are foreign cryptographic code. They are the oracles `decode` and `signatureOk`.
- Pem.MatchLines: counts line length in Unicode code points, whereas JavaScript's `.` without the `u` flag matches one UTF-16 code unit. So on text with characters outside the Basic Multilingual Plane, the model's 64-character lines differ from JavaScript's, which can even split a surrogate pair. For base64 `x5c` certificates, which are ASCII, the two coincide.
- A rejected store operation is assumed to leave the table as it was. The operations' code is not part of this model, and the AWS SDK can reject after a timeout even though the service has already applied the write.
- Handlers.IsValid: the ownership query is assumed to succeed. A rejected `isValidTodoItem` promise, which would make the handler throw, is not modelled.
- Strings.ToLower: folds only ASCII `A`..`Z`. This cannot change the outcome of the `"bearer "` prefix test. No non-ASCII character lower-cases to a string that starts with one of `b`, `e`, `a`, `r` or space. So any non-ASCII character in the first seven positions fails the test either way. Token extraction uses the original header, not the lower-cased one.
- Todo.GetTodos: returns a set, not a list. The query orders items by descending sort key (`ScanIndexForward: false`), which is a property of the DynamoDB service. The result is also only as complete as `Todo.QueryByUser`'s, described on the next line.
- Todo.QueryByUser: assumes the user's items fit in one result page and the table has settled. The source makes one `query` call and never follows `LastEvaluatedKey`, so only the first 1 MB page is returned. The read is not `ConsistentRead`, so an item written just before can be missing. `CreatedItemListedOnlyForOwner` holds of a settled table.
- Todo.PutItem: the put and the query are assumed to succeed. In the source a rejected put makes `createTodo` reject with no item returned, and a rejected query makes `getTodos` reject.
- Jwks.JwtPayload: the decoded payload is assumed to carry a string `sub`. A payload without one would give an Allow policy whose `principalId` is undefined.
- The data layer (`dataLayer/todoAccess.ts`) and storage layer (`storageLayer/todoStorage.ts`) are thin AWS SDK wrappers:
  - the put is modelled as a map update that returns its argument (`PutItem`);
  - the query is modelled as selection by partition key (`QueryByUser`);
  - the pre-signed URL is an opaque function of the todo id.
- The bodies of `isValidTodoItem`, `updateTodo`, `deleteTodo`, `getUploadUrl` and `updateAttachmentUrl` are not part of this model. The first is table membership. The others are parameters.
- `createTodo.ts` and `getTodos.ts` handlers are left out: each wraps one business-logic call in a 201 response, with no branching.
- Left out as library behaviour: middy `cors` middleware, logging, JSON parsing and serialisation. Bodies are datatypes, and an unparsable update body is `None`.
- Environment-driven client construction (`IS_OFFLINE`, `process.env`) is deployment configuration.
- The check-then-act race between concurrent requests is outside a sequential model.
- A key-list element that is `null`, or a non-string `x5c[0]`, is left out. The key list is a sequence of well-typed records.

=== FILE: authorizer.dfy ===
/** The bearer-token custom authorizer: header parsing (RFC 6750 section 2.1),
    key selection over the fetched key set, and the Allow/Deny policy. */
module Authorizer {
  import opened Wrappers
  import opened Strings
  import opened Pem
  import opened Jwks

  /** The reason `verifyToken` throws; all of them end in a Deny policy. */
  datatype AuthError =
    | NoAuthenticationHeader
    | InvalidAuthenticationHeader
    | JwksUnavailable
    | InvalidJwks
    | MalformedToken
    | NoSigningKey
    | UnreadableCertificate
    | SignatureRejected

  const BearerPrefix: string := "bearer "

  /** The scheme test: the first seven characters fold to `"bearer "`. */
  predicate HasBearerScheme(header: string) {
    |header| >= |BearerPrefix| && forall i :: 0 <= i < |BearerPrefix| ==> LowerChar(header[i]) == BearerPrefix[i]
  }

  /** `getToken`: reject a missing or empty header and any scheme other than
      `bearer` (in any letter case), then take the second space-separated field. */
  function GetToken(authHeader: Option<string>): (r: Result<string, AuthError>)
    ensures r == Failure(NoAuthenticationHeader) <==> authHeader.None? || authHeader.value == []
    ensures r == Failure(InvalidAuthenticationHeader) <==>
      authHeader.Some? && authHeader.value != [] && !HasBearerScheme(authHeader.value)
    ensures r.Success? <==> authHeader.Some? && HasBearerScheme(authHeader.value)
    ensures r.Success? ==>
      var h := authHeader.value;
      && |BearerPrefix| + |r.value| <= |h|
      && r.value == h[|BearerPrefix|..|BearerPrefix| + |r.value|]
      && ' ' !in r.value
      && (|BearerPrefix| + |r.value| == |h| || h[|BearerPrefix| + |r.value|] == ' ')
  {
    if authHeader.None? || authHeader.value == [] then Failure(NoAuthenticationHeader)
    else
      var h := authHeader.value;
      if !StartsWith(ToLower(h), BearerPrefix) then
        Failure(InvalidAuthenticationHeader)
      else
        FoldedPrefixIsScheme(h);
        BearerFieldsSplit(h);
        Success(Split(h, ' ')[1])
  }

  /** The lower-cased prefix test of the source is exactly the scheme test. */
  lemma FoldedPrefixIsScheme(h: string)
    ensures StartsWith(ToLower(h), BearerPrefix) <==> HasBearerScheme(h)
  {
    if HasBearerScheme(h) {
      assert ToLower(h)[..|BearerPrefix|] == BearerPrefix;
    }
  }

  /** With the scheme in place, the first space is at index 6, so the second
      field runs from index 7 to the next space or the end. */
  lemma BearerFieldsSplit(h: string)
    requires HasBearerScheme(h)
    ensures |Split(h, ' ')| >= 2
    ensures
      var t := Split(h, ' ')[1];
      && |BearerPrefix| + |t| <= |h| && t == h[|BearerPrefix|..|BearerPrefix| + |t|] && ' ' !in t
      && (|BearerPrefix| + |t| == |h| || h[|BearerPrefix| + |t|] == ' ')
  {
    var start := |BearerPrefix|;
    assert start == 7;
    var rest := h[start..];
    SplitAtSix(h);
    FirstField(rest);
    var t := Split(rest, ' ')[0];
    assert h[start..start + |t|] == rest[..|t|];
    if start + |t| < |h| {
      assert h[start + |t|] == rest[|t|];
    }
  }

  lemma SplitAtSix(h: string)
    requires HasBearerScheme(h)
    ensures |h| >= 7 && Split(h, ' ') == [h[..6]] + Split(h[7..], ' ')
  {
    BearerSpaceAtSix(h);
    SplitAfterPrefix(h[..6], ' ', h[7..]);
    assert h[..6] + [' '] + h[7..] == h;
  }

  lemma BearerSpaceAtSix(h: string)
    requires HasBearerScheme(h)
    ensures |h| >= 7 && h[6] == ' ' && ' ' !in h[..6]
  {
    assert LowerChar(h[6]) == BearerPrefix[6];
    forall i | 0 <= i < 6
      ensures h[i] != ' '
    {
      assert LowerChar(h[i]) == BearerPrefix[i];
    }
  }

  /** The first field of a split runs up to the first space or the end. */
  lemma FirstField(s: string)
    ensures
      var t := Split(s, ' ')[0];
      && |t| <= |s| && t == s[..|t|] && ' ' !in t
      && (|t| == |s| || s[|t|] == ' ')
  {
    SplitHead(s, ' ');
    if ' ' !in s {
      assert s[..|s|] == s;
    }
  }

  /** Any spelling of the scheme is accepted: Bearer, BEARER, bearer, ... */
  lemma SchemeIsCaseInsensitive(token: string)
    requires ' ' !in token
    ensures GetToken(Some("Bearer " + token)) == Success(token)
    ensures GetToken(Some("BEARER " + token)) == Success(token)
    ensures GetToken(Some("bearer " + token)) == Success(token)
  {
    SpellingYieldsToken("Bearer ", token);
    SpellingYieldsToken("BEARER ", token);
    SpellingYieldsToken("bearer ", token);
  }

  lemma SpellingYieldsToken(scheme: string, token: string)
    requires scheme in {"Bearer ", "BEARER ", "bearer "}
    requires ' ' !in token
    ensures GetToken(Some(scheme + token)) == Success(token)
  {
    FoldsToBearer(scheme);
    BearerHeaderYieldsToken(scheme, token);
  }

  lemma FoldsToBearer(scheme: string)
    requires |scheme| == |BearerPrefix|
    requires forall i :: 0 <= i < |scheme| ==> LowerChar(scheme[i]) == BearerPrefix[i]
    ensures ToLower(scheme) == BearerPrefix
  {
  }

  /** A header made of a scheme that folds to `"bearer "` and a space-free token
      yields exactly that token. */
  lemma BearerHeaderYieldsToken(scheme: string, token: string)
    requires |scheme| == |BearerPrefix| && ToLower(scheme) == BearerPrefix
    requires ' ' !in token
    ensures GetToken(Some(scheme + token)) == Success(token)
  {
    var h := scheme + token;
    assert HasBearerScheme(h) by {
      forall i | 0 <= i < |BearerPrefix|
        ensures LowerChar(h[i]) == BearerPrefix[i]
      {
        assert h[i] == scheme[i];
        assert ToLower(scheme)[i] == LowerChar(scheme[i]);
      }
    }
    var t := GetToken(Some(h)).value;
    assert h[|BearerPrefix|..] == token;
    assert h[|BearerPrefix|..|BearerPrefix| + |t|] == token;
  }

  /** `verifyToken`. The network fetch of the key set is the input `jwks`
      (`None` when the response, its data or its `keys` member is missing);
      `jsonwebtoken.decode` is the oracle `decode` and `jsonwebtoken.verify`
      with RS256 is the oracle `signatureOk(token, pem)`. */
  function VerifyToken(
    authHeader: Option<string>,
    decode: string -> Option<Jwt>,
    jwks: Option<seq<Jwk>>,
    signatureOk: (string, string) -> bool
  ): (r: Result<JwtPayload, AuthError>)
    ensures GetToken(authHeader).Failure? ==> r == Failure(GetToken(authHeader).error)
    ensures GetToken(authHeader).Success? && jwks.None? ==> r == Failure(JwksUnavailable)
    ensures GetToken(authHeader).Success? && jwks == Some([]) ==> r == Failure(InvalidJwks)
    ensures r.Success? ==>
      var token := GetToken(authHeader).value;
      && decode(token).Some?
      && r.value == decode(token).value.payload
  {
    var token :- GetToken(authHeader);
    var jwt := decode(token);
    if jwks.None? then Failure(JwksUnavailable)
    else if |jwks.value| == 0 then Failure(InvalidJwks)
    else
      match FilterSigningKeys(jwks.value, jwt)
      case None => Failure(MalformedToken)
      case Some(signingKeys) =>
        if |signingKeys| == 0 then Failure(NoSigningKey)
        else
          assert signingKeys[0] in signingKeys;
          var certificate := signingKeys[0].x5c.value[0];
          match CertificateToPEM(certificate)
          case None => Failure(UnreadableCertificate)
          case Some(pem) =>
            if !signatureOk(token, pem) then Failure(SignatureRejected)
            else Success(jwt.value.payload)
  }

  /** Verification succeeds exactly when the header is well formed, the key set is
      present and non-empty, the token decodes, some key passes the filter, and the
      signature checks against the PEM of `x5c[0]` of the FIRST such key. */
  lemma VerifyTokenSucceedsIff(
    authHeader: Option<string>,
    decode: string -> Option<Jwt>,
    jwks: Option<seq<Jwk>>,
    signatureOk: (string, string) -> bool
  )
    ensures VerifyToken(authHeader, decode, jwks, signatureOk).Success? <==>
      && GetToken(authHeader).Success?
      && var token := GetToken(authHeader).value;
      && jwks.Some? && |jwks.value| > 0
      && decode(token).Some?
      && var first := FirstSigningKey(jwks.value, decode(token).value.header.kid);
      && first.Some?
      && var certificate := jwks.value[first.value].x5c.value[0];
      && CertificateToPEM(certificate).Some?
      && signatureOk(token, CertificateToPEM(certificate).value)
  {
    if GetToken(authHeader).Success? && jwks.Some? && |jwks.value| > 0 {
      var token := GetToken(authHeader).value;
      if decode(token).Some? {
        FilterHeadIsFirstSigningKey(jwks.value, decode(token).value);
      }
    }
  }

  /** A key set in which no key passes the filter for the token's `kid` is always rejected. */
  lemma NoSigningKeyDenies(
    authHeader: Option<string>,
    decode: string -> Option<Jwt>,
    keys: seq<Jwk>,
    signatureOk: (string, string) -> bool
  )
    requires GetToken(authHeader).Success? && decode(GetToken(authHeader).value).Some? ==>
      forall i :: 0 <= i < |keys| ==> !IsSigningKeyFor(keys[i], decode(GetToken(authHeader).value).value.header.kid)
    ensures VerifyToken(authHeader, decode, Some(keys), signatureOk).Failure?
  {
    VerifyTokenSucceedsIff(authHeader, decode, Some(keys), signatureOk);
  }

  datatype Effect = Allow | Deny
  datatype Statement = Statement(action: string, effect: Effect, resource: string)
  datatype PolicyDocument = PolicyDocument(version: string, statement: seq<Statement>)
  datatype AuthorizerResult = AuthorizerResult(principalId: string, policyDocument: PolicyDocument)

  const PolicyVersion: string := "2012-10-17"
  const InvokeAction: string := "execute-api:Invoke"
  const AnyResource: string := "*"
  const DeniedPrincipal: string := "user"

  function Policy(effect: Effect): PolicyDocument {
    PolicyDocument(PolicyVersion, [Statement(InvokeAction, effect, AnyResource)])
  }

  /** `handler`: never throws; Allow for the token's subject on success,
      Deny for the fixed principal `'user'` on any failure. */
  function Handler(
    authorizationToken: Option<string>,
    decode: string -> Option<Jwt>,
    jwks: Option<seq<Jwk>>,
    signatureOk: (string, string) -> bool
  ): (r: AuthorizerResult)
    ensures r.policyDocument.version == "2012-10-17"
    ensures |r.policyDocument.statement| == 1
    ensures r.policyDocument.statement[0].action == "execute-api:Invoke"
    ensures r.policyDocument.statement[0].resource == "*"
    ensures r.policyDocument.statement[0].effect == Allow <==>
      VerifyToken(authorizationToken, decode, jwks, signatureOk).Success?
    ensures VerifyToken(authorizationToken, decode, jwks, signatureOk).Success? ==>
      r.principalId == VerifyToken(authorizationToken, decode, jwks, signatureOk).value.sub
    ensures VerifyToken(authorizationToken, decode, jwks, signatureOk).Failure? ==>
      r.principalId == "user"
  {
    match VerifyToken(authorizationToken, decode, jwks, signatureOk)
    case Success(payload) => AuthorizerResult(payload.sub, Policy(Allow))
    case Failure(_) => AuthorizerResult(DeniedPrincipal, Policy(Deny))
  }

  /** A header without the bearer scheme is denied whatever the key set and oracles say. */
  lemma MalformedHeaderDenied(
    authorizationToken: Option<string>,
    decode: string -> Option<Jwt>,
    jwks: Option<seq<Jwk>>,
    signatureOk: (string, string) -> bool
  )
    requires authorizationToken.None? || !HasBearerScheme(authorizationToken.value)
    ensures Handler(authorizationToken, decode, jwks, signatureOk)
         == AuthorizerResult("user", PolicyDocument("2012-10-17", [Statement("execute-api:Invoke", Deny, "*")]))
  {
  }
}

=== FILE: handlers.dfy ===
/** The ownership-gated HTTP handlers `updateTodo`, `deleteTodo` and
    `generateUploadUrl`. Each is a pure function from the table and the request
    to the outcome, the new table and the trace of business-logic calls it made. */
module Handlers {
  import opened Wrappers
  import opened Todo

  datatype UpdateTodoRequest = UpdateTodoRequest(name: string, dueDate: string, done: bool)

  /** Response bodies, before JSON serialisation. */
  datatype Body = NullBody | ErrorBody(error: string) | UploadUrlBody(uploadUrl: string)
  datatype Response = Response(statusCode: int, body: Body)

  /** A handler either returns a response or throws (a body that is not JSON). */
  datatype Outcome = Returned(response: Response) | Threw

  /** The business-logic operations a handler invokes, in the order it invokes them. */
  datatype Call =
    | IsValidTodoItem(checkedTodoId: TodoId, checkedUserId: UserId)
    | UpdateTodo(request: UpdateTodoRequest, todoId: TodoId, userId: UserId)
    | DeleteTodo(todoId: TodoId, userId: UserId)
    | GetUploadUrl(todoId: TodoId)
    | UpdateAttachmentUrl(todoId: TodoId, userId: UserId)

  datatype Run = Run(outcome: Outcome, store: Store, calls: seq<Call>)

  const NotFoundMessage: string := "Unable to fetch todo item"
  const NotFound: Response := Response(404, ErrorBody(NotFoundMessage))

  /** The ownership gate `isValidTodoItem`: the item exists under the caller's user id,
      that is, the caller's own list holds an item with that id. */
  function IsValid(store: Store, todoId: TodoId, userId: UserId): (valid: bool)
    ensures WellFormed(store) ==>
      (valid <==> exists it :: it in QueryByUser(store, userId) && it.todoId == todoId)
  {
    if (userId, todoId) in store then
      assert store[(userId, todoId)] in QueryByUser(store, userId);
      true
    else
      false
  }

  /** The abstract store operations; their bodies are not part of this model.
      `None` is a rejected promise, which makes the handler throw. */
  type UpdateOp = (Store, UpdateTodoRequest, TodoId, UserId) -> Option<Store>
  type DeleteOp = (Store, TodoId, UserId) -> Option<Store>
  type AttachOp = (Store, TodoId, UserId) -> Option<Store>

  /** `updateTodo.ts` handler; `body` is `None` when `JSON.parse` throws. */
  function UpdateHandler(store: Store, todoId: TodoId, userId: UserId, body: Option<UpdateTodoRequest>, updateTodo: UpdateOp)
    : (r: Run)
    ensures body.None? ==> r.outcome == Threw && r.store == store && r.calls == []
    ensures body.Some? && !IsValid(store, todoId, userId) ==>
      && r.outcome == Returned(Response(404, ErrorBody("Unable to fetch todo item")))
      && r.store == store
      && r.calls == [IsValidTodoItem(todoId, userId)]
    ensures body.Some? && IsValid(store, todoId, userId) ==>
      && r.calls == [IsValidTodoItem(todoId, userId), UpdateTodo(body.value, todoId, userId)]
      && (updateTodo(store, body.value, todoId, userId).None? ==> r.outcome == Threw && r.store == store)
      && (updateTodo(store, body.value, todoId, userId).Some? ==>
            && r.outcome == Returned(Response(204, NullBody))
            && r.store == updateTodo(store, body.value, todoId, userId).value)
  {
    match body
    case None => Run(Threw, store, [])
    case Some(request) =>
      if !IsValid(store, todoId, userId) then
        Run(Returned(NotFound), store, [IsValidTodoItem(todoId, userId)])
      else
        var calls := [IsValidTodoItem(todoId, userId), UpdateTodo(request, todoId, userId)];
        match updateTodo(store, request, todoId, userId)
        case None => Run(Threw, store, calls)
        case Some(updated) => Run(Returned(Response(204, NullBody)), updated, calls)
  }

  /** `deleteTodo.ts` handler. */
  function DeleteHandler(store: Store, todoId: TodoId, userId: UserId, deleteTodo: DeleteOp): (r: Run)
    ensures !IsValid(store, todoId, userId) ==>
      && r.outcome == Returned(Response(404, ErrorBody("Unable to fetch todo item")))
      && r.store == store
      && r.calls == [IsValidTodoItem(todoId, userId)]
    ensures IsValid(store, todoId, userId) ==>
      && r.calls == [IsValidTodoItem(todoId, userId), DeleteTodo(todoId, userId)]
      && (deleteTodo(store, todoId, userId).None? ==> r.outcome == Threw && r.store == store)
      && (deleteTodo(store, todoId, userId).Some? ==>
            && r.outcome == Returned(Response(204, NullBody))
            && r.store == deleteTodo(store, todoId, userId).value)
  {
    if !IsValid(store, todoId, userId) then
      Run(Returned(NotFound), store, [IsValidTodoItem(todoId, userId)])
    else
      var calls := [IsValidTodoItem(todoId, userId), DeleteTodo(todoId, userId)];
      match deleteTodo(store, todoId, userId)
      case None => Run(Threw, store, calls)
      case Some(deleted) => Run(Returned(Response(204, NullBody)), deleted, calls)
  }

  /** `generateUploadUrl.ts` handler; `uploadUrlFor` is the pre-signed URL issuer. */
  function UploadUrlHandler(store: Store, todoId: TodoId, userId: UserId, uploadUrlFor: TodoId -> string, updateAttachmentUrl: AttachOp)
    : (r: Run)
    ensures !IsValid(store, todoId, userId) ==>
      && r.outcome == Returned(Response(404, ErrorBody("Unable to fetch todo item")))
      && r.store == store
      && r.calls == [IsValidTodoItem(todoId, userId)]
    ensures IsValid(store, todoId, userId) ==>
      && r.calls == [IsValidTodoItem(todoId, userId), GetUploadUrl(todoId), UpdateAttachmentUrl(todoId, userId)]
      && (updateAttachmentUrl(store, todoId, userId).None? ==> r.outcome == Threw && r.store == store)
      && (updateAttachmentUrl(store, todoId, userId).Some? ==>
            && r.outcome == Returned(Response(201, UploadUrlBody(uploadUrlFor(todoId))))
            && r.store == updateAttachmentUrl(store, todoId, userId).value)
  {
    if !IsValid(store, todoId, userId) then
      Run(Returned(NotFound), store, [IsValidTodoItem(todoId, userId)])
    else
      var uploadUrl := uploadUrlFor(todoId);
      var calls := [IsValidTodoItem(todoId, userId), GetUploadUrl(todoId), UpdateAttachmentUrl(todoId, userId)];
      match updateAttachmentUrl(store, todoId, userId)
      case None => Run(Threw, store, calls)
      case Some(attached) => Run(Returned(Response(201, UploadUrlBody(uploadUrl))), attached, calls)
  }

  /** The invariant all three handlers keep: the ownership check comes first, every later
      call targets the checked item, and when the check fails nothing else is called,
      the table is unchanged and the answer is the generic 404. */
  ghost predicate Gated(run: Run, store: Store, todoId: TodoId, userId: UserId) {
    && (run.outcome.Returned? ==> |run.calls| >= 1)
    && (|run.calls| >= 1 ==> run.calls[0] == IsValidTodoItem(todoId, userId))
    && (forall i :: 1 <= i < |run.calls| ==> Targets(run.calls[i], todoId, userId))
    && (!IsValid(store, todoId, userId) ==>
          run.store == store && |run.calls| <= 1
          && (run.outcome.Returned? ==> run.outcome.response == NotFound))
    && (run.outcome == Returned(NotFound) ==> run.store == store && |run.calls| == 1)
  }

  predicate Targets(call: Call, todoId: TodoId, userId: UserId) {
    match call
    case IsValidTodoItem(t, u) => t == todoId && u == userId
    case UpdateTodo(_, t, u) => t == todoId && u == userId
    case DeleteTodo(t, u) => t == todoId && u == userId
    case GetUploadUrl(t) => t == todoId
    case UpdateAttachmentUrl(t, u) => t == todoId && u == userId
  }

  lemma HandlersAreGated(store: Store, todoId: TodoId, userId: UserId,
                         body: Option<UpdateTodoRequest>, updateTodo: UpdateOp, deleteTodo: DeleteOp,
                         uploadUrlFor: TodoId -> string, updateAttachmentUrl: AttachOp)
    ensures Gated(UpdateHandler(store, todoId, userId, body, updateTodo), store, todoId, userId)
    ensures Gated(DeleteHandler(store, todoId, userId, deleteTodo), store, todoId, userId)
    ensures Gated(UploadUrlHandler(store, todoId, userId, uploadUrlFor, updateAttachmentUrl), store, todoId, userId)
  {
  }

  /** The body is parsed before the ownership check: an unparsable body fails the
      same way whoever owns the item. */
  lemma ParseFailureIgnoresOwnership(store1: Store, store2: Store, todoId: TodoId, userId: UserId, updateTodo: UpdateOp)
    ensures UpdateHandler(store1, todoId, userId, None, updateTodo).outcome
         == UpdateHandler(store2, todoId, userId, None, updateTodo).outcome
    ensures UpdateHandler(store1, todoId, userId, None, updateTodo).calls == []
  {
  }

  /** A store operation that leaves every item other than the one it is given alone. */
  ghost predicate UpdateIsLocal(f: UpdateOp) {
    forall s, req, t, u, k :: f(s, req, t, u).Some? && k != (u, t) ==>
      (k in f(s, req, t, u).value <==> k in s) && (k in s ==> f(s, req, t, u).value[k] == s[k])
  }

  ghost predicate KeyedOpIsLocal(f: (Store, TodoId, UserId) -> Option<Store>) {
    forall s, t, u, k :: f(s, t, u).Some? && k != (u, t) ==>
      (k in f(s, t, u).value <==> k in s) && (k in s ==> f(s, t, u).value[k] == s[k])
  }

  /** Every item other than (`userId`, `todoId`) is present before and after, with the same value. */
  ghost predicate OthersUnchanged(before: Store, after: Store, todoId: TodoId, userId: UserId) {
    forall k :: k != (userId, todoId) ==> (k in after <==> k in before) && (k in before ==> after[k] == before[k])
  }

  /** With local store operations, a request touches at most the caller's own item. */
  lemma HandlersTouchOnlyTheCallersItem(store: Store, todoId: TodoId, userId: UserId,
                                        body: Option<UpdateTodoRequest>, updateTodo: UpdateOp, deleteTodo: DeleteOp,
                                        uploadUrlFor: TodoId -> string, updateAttachmentUrl: AttachOp)
    requires UpdateIsLocal(updateTodo) && KeyedOpIsLocal(deleteTodo) && KeyedOpIsLocal(updateAttachmentUrl)
    ensures OthersUnchanged(store, UpdateHandler(store, todoId, userId, body, updateTodo).store, todoId, userId)
    ensures OthersUnchanged(store, DeleteHandler(store, todoId, userId, deleteTodo).store, todoId, userId)
    ensures OthersUnchanged(store, UploadUrlHandler(store, todoId, userId, uploadUrlFor, updateAttachmentUrl).store, todoId, userId)
  {
  }

  /** No todo id is stored under two different users (fresh `uuid.v4()` ids). */
  ghost predicate UniqueTodoIds(store: Store) {
    forall k1, k2 :: k1 in store && k2 in store && k1.1 == k2.1 ==> k1.0 == k2.0
  }

  /** A request by another user for someone's item is answered 404 and the item,
      and the whole table, stay as they were. */
  lemma ForeignRequestRejected(store: Store, owner: UserId, caller: UserId, todoId: TodoId,
                               body: UpdateTodoRequest, updateTodo: UpdateOp, deleteTodo: DeleteOp,
                               uploadUrlFor: TodoId -> string, updateAttachmentUrl: AttachOp)
    requires UniqueTodoIds(store)
    requires (owner, todoId) in store
    requires caller != owner
    ensures UpdateHandler(store, todoId, caller, Some(body), updateTodo) == Run(Returned(NotFound), store, [IsValidTodoItem(todoId, caller)])
    ensures DeleteHandler(store, todoId, caller, deleteTodo) == Run(Returned(NotFound), store, [IsValidTodoItem(todoId, caller)])
    ensures UploadUrlHandler(store, todoId, caller, uploadUrlFor, updateAttachmentUrl) == Run(Returned(NotFound), store, [IsValidTodoItem(todoId, caller)])
  {
  }

  /** The handler is not idempotent: the ownership check comes first, so once the
      item is gone a second delete of it answers 404. */
  lemma SecondDeleteIsNotFound(store: Store, todoId: TodoId, userId: UserId, deleteTodo: DeleteOp)
    requires IsValid(store, todoId, userId)
    requires deleteTodo(store, todoId, userId).Some?
    requires (userId, todoId) !in deleteTodo(store, todoId, userId).value
    ensures
      var first := DeleteHandler(store, todoId, userId, deleteTodo);
      && first.outcome == Returned(Response(204, NullBody))
      && DeleteHandler(first.store, todoId, userId, deleteTodo).outcome == Returned(NotFound)
  {
  }
}

=== FILE: jwks.dfy ===
/** JSON Web Keys (RFC 7517) and the signing-key filter of the authorizer. */
module Jwks {
  import opened Wrappers

  /** One JWK of the key set; a missing member is `None`.
      `kty` is section 4.1, `use` section 4.2, `kid` section 4.5, `x5c` section 4.7 of RFC 7517. */
  datatype Jwk = Jwk(kty: Option<string>, use: Option<string>, kid: Option<string>, x5c: Option<seq<string>>)

  /** The decoded, not yet trusted, JOSE header and claims of a token. */
  datatype JwtHeader = JwtHeader(kid: Option<string>)
  datatype JwtPayload = JwtPayload(sub: string)
  datatype Jwt = Jwt(header: JwtHeader, payload: JwtPayload)

  /** The part of the filter evaluated before the token header is consulted. */
  predicate IsRsaSignatureKey(key: Jwk) {
    key.use == Some("sig") && key.kty == Some("RSA")
  }

  /** The whole filter condition: RSA signature key, same `kid` (strict equality, so two
      absent `kid`s are equal) and a non-empty certificate chain. */
  predicate IsSigningKeyFor(key: Jwk, kid: Option<string>) {
    && IsRsaSignatureKey(key)
    && key.kid == kid
    && key.x5c.Some? && |key.x5c.value| > 0
  }

  /** `keyList.filter(...)`. When the decoded token is `null` the filter throws (`None`)
      as soon as it reaches a key that passes the `use`/`kty` test. The contract pins
      membership only; the order is observable only through `signingKeys[0]`, which
      `FilterHeadIsFirstSigningKey` pins to the first passing key. */
  function FilterSigningKeys(keys: seq<Jwk>, jwt: Option<Jwt>): (r: Option<seq<Jwk>>)
    ensures r.None? <==> jwt.None? && exists i :: 0 <= i < |keys| && IsRsaSignatureKey(keys[i])
    ensures r.Some? && jwt.None? ==> r.value == []
    ensures r.Some? && jwt.Some? ==>
      forall k :: k in r.value <==> k in keys && IsSigningKeyFor(k, jwt.value.header.kid)
  {
    if |keys| == 0 then Some([])
    else if jwt.None? && IsRsaSignatureKey(keys[0]) then None
    else
      var rest :- FilterSigningKeys(keys[1..], jwt);
      assert keys == [keys[0]] + keys[1..];
      if jwt.Some? && IsSigningKeyFor(keys[0], jwt.value.header.kid)
      then Some([keys[0]] + rest)
      else Some(rest)
  }

  /** Index of the first key, in list order, that passes the filter. */
  function FirstSigningKey(keys: seq<Jwk>, kid: Option<string>): (r: Option<nat>)
    ensures r.Some? ==> r.value < |keys| && IsSigningKeyFor(keys[r.value], kid)
    ensures r.Some? ==> forall j :: 0 <= j < r.value ==> !IsSigningKeyFor(keys[j], kid)
    ensures r.None? ==> forall j :: 0 <= j < |keys| ==> !IsSigningKeyFor(keys[j], kid)
  {
    if |keys| == 0 then None
    else if IsSigningKeyFor(keys[0], kid) then Some(0)
    else
      match FirstSigningKey(keys[1..], kid)
      case None => None
      case Some(i) => Some(i + 1)
  }

  /** `signingKeys[0]` is the first key of the list that passes the filter,
      and the filtered list is empty exactly when no key passes. */
  lemma {:induction false} FilterHeadIsFirstSigningKey(keys: seq<Jwk>, jwt: Jwt)
    ensures FilterSigningKeys(keys, Some(jwt)).Some?
    ensures
      var filtered := FilterSigningKeys(keys, Some(jwt)).value;
      var first := FirstSigningKey(keys, jwt.header.kid);
      && (|filtered| == 0 <==> first.None?)
      && (first.Some? ==> filtered[0] == keys[first.value])
    decreases |keys|
  {
    if |keys| > 0 {
      FilterHeadIsFirstSigningKey(keys[1..], jwt);
    }
  }
}

=== FILE: pem.dfy ===
/** Re-wrapping a base64 `x5c` certificate (RFC 7517 section 4.7) into the
    PEM textual encoding of RFC 7468 section 2. */
module Pem {
  import opened Wrappers
  import opened Strings

  const MaxLineLength: nat := 64
  const Header: string := "-----BEGIN CERTIFICATE-----\n"
  const Footer: string := "\n-----END CERTIFICATE-----\n"

  /** The characters a JavaScript regular-expression `.` does not match. */
  predicate IsLineTerminator(c: char) {
    c == '\n' || c == '\r' || c == '\U{2028}' || c == '\U{2029}'
  }

  predicate NoTerminator(s: string) {
    forall i :: 0 <= i < |s| ==> !IsLineTerminator(s[i])
  }

  /** `s` with every line terminator removed. */
  function Printable(s: string): (r: string)
    ensures NoTerminator(r)
  {
    if |s| == 0 then []
    else (if IsLineTerminator(s[0]) then [] else [s[0]]) + Printable(s[1..])
  }

  lemma {:induction false} PrintableAppend(a: string, b: string)
    ensures Printable(a + b) == Printable(a) + Printable(b)
    decreases |a|
  {
    if |a| > 0 {
      assert (a + b)[1..] == a[1..] + b;
      PrintableAppend(a[1..], b);
    } else {
      assert a + b == b;
    }
  }

  lemma {:induction false} PrintableOfPlain(s: string)
    requires NoTerminator(s)
    ensures Printable(s) == s
    decreases |s|
  {
    if |s| > 0 {
      PrintableOfPlain(s[1..]);
      assert s == [s[0]] + s[1..];
    }
  }

  /** Length of the longest match of `.{1,n}` (greedy) at the start of `s`, 0 if none. */
  function RunLength(s: string, n: nat): (k: nat)
    ensures k <= n && k <= |s|
    ensures forall i :: 0 <= i < k ==> !IsLineTerminator(s[i])
    ensures k < n && k < |s| ==> IsLineTerminator(s[k])
  {
    if n == 0 || |s| == 0 || IsLineTerminator(s[0]) then 0
    else 1 + RunLength(s[1..], n - 1)
  }

  /** All matches of the global regular expression `/.{1,64}/g` against `s`, in order;
      the empty sequence stands for the `null` that `match` returns when nothing matches. */
  function MatchLines(s: string): (lines: seq<string>)
    ensures forall i :: 0 <= i < |lines| ==> 1 <= |lines[i]| <= MaxLineLength
    ensures forall i :: 0 <= i < |lines| ==> NoTerminator(lines[i])
    ensures Concat(lines) == Printable(s)
    decreases |s|
  {
    if |s| == 0 then []
    else if IsLineTerminator(s[0]) then
      assert Printable(s) == Printable(s[1..]);
      MatchLines(s[1..])
    else
      var k := RunLength(s, MaxLineLength);
      var rest := MatchLines(s[k..]);
      assert s == s[..k] + s[k..];
      PrintableAppend(s[..k], s[k..]);
      PrintableOfPlain(s[..k]);
      [s[..k]] + rest
  }

  /** A run of printable characters stops at a line terminator. */
  lemma {:induction false} RunLengthStopsAtTerminator(a: string, rest: string, n: nat)
    requires |rest| > 0 && IsLineTerminator(rest[0])
    ensures RunLength(a + rest, n) == RunLength(a, n)
    decreases |a|
  {
    if n > 0 && |a| > 0 && !IsLineTerminator(a[0]) {
      assert (a + rest)[1..] == a[1..] + rest;
      RunLengthStopsAtTerminator(a[1..], rest, n - 1);
    } else if |a| == 0 {
      assert a + rest == rest;
    }
  }

  /** Matches never span a line terminator: the text before it and the text after it
      are matched separately. */
  lemma {:induction false} MatchLinesBreakAtTerminator(a: string, c: char, b: string)
    requires IsLineTerminator(c)
    ensures MatchLines(a + [c] + b) == MatchLines(a) + MatchLines(b)
    decreases |a|
  {
    var s := a + [c] + b;
    if |a| == 0 {
      assert s == [c] + b;
      assert s[1..] == b;
    } else if IsLineTerminator(a[0]) {
      assert s[1..] == a[1..] + [c] + b;
      MatchLinesBreakAtTerminator(a[1..], c, b);
    } else {
      assert s == a + ([c] + b);
      RunLengthStopsAtTerminator(a, [c] + b, MaxLineLength);
      var k := RunLength(a, MaxLineLength);
      assert s[..k] == a[..k];
      assert s[k..] == a[k..] + [c] + b;
      MatchLinesBreakAtTerminator(a[k..], c, b);
    }
  }

  /** On terminator-free text the matches are consecutive 64-character chunks:
      they concatenate back to the input, and only the last may be shorter. */
  lemma {:induction false} MatchLinesOfPlain(s: string)
    requires NoTerminator(s)
    ensures Concat(MatchLines(s)) == s
    ensures |MatchLines(s)| == 0 <==> |s| == 0
    ensures forall i :: 0 <= i < |MatchLines(s)| - 1 ==> |MatchLines(s)[i]| == MaxLineLength
    decreases |s|
  {
    PrintableOfPlain(s);
    if |s| > 0 {
      var k := RunLength(s, MaxLineLength);
      assert k == MaxLineLength || k == |s|;
      MatchLinesOfPlain(s[k..]);
      if k == |s| {
        assert MatchLines(s[k..]) == [];
      }
    }
  }

  /** `certificateToPEM`: wrap the matches of `/.{1,64}/g` at newlines and frame them.
      `None` is the TypeError thrown when `match` returns `null`. */
  function CertificateToPEM(certificate: string): (r: Option<string>)
    ensures r.None? <==> Printable(certificate) == []
    ensures r.Some? ==>
      && |Header| + |Footer| <= |r.value|
      && r.value[..|Header|] == Header
      && r.value[|r.value| - |Footer|..] == Footer
  {
    var lines := MatchLines(certificate);
    if |lines| == 0 then None
    else
      assert |lines[0]| > 0 && |Concat(lines)| > 0;
      Some(Header + Join(lines, '\n') + Footer)
  }

  /** The inverse framing: strip BEGIN/END and the line breaks between body lines. */
  function PemToCertificate(pem: string): (r: Option<string>)
  {
    if |Header| + |Footer| <= |pem|
       && pem[..|Header|] == Header && pem[|pem| - |Footer|..] == Footer
    then Some(RemoveAll(pem[|Header|..|pem| - |Footer|], '\n'))
    else None
  }

  /** The PEM body of a base64 certificate is exactly its 64-character lines:
      splitting it at newlines gives lines of 1..64 characters, all but the
      last exactly 64, that concatenate back to the certificate. */
  lemma PemBodyLines(certificate: string)
    requires |certificate| > 0 && NoTerminator(certificate)
    ensures CertificateToPEM(certificate).Some?
    ensures
      var pem := CertificateToPEM(certificate).value;
      var lines := Split(pem[|Header|..|pem| - |Footer|], '\n');
      && Concat(lines) == certificate
      && (forall i :: 0 <= i < |lines| ==> 1 <= |lines[i]| <= MaxLineLength)
      && (forall i :: 0 <= i < |lines| - 1 ==> |lines[i]| == MaxLineLength)
  {
    var lines := MatchLines(certificate);
    MatchLinesOfPlain(certificate);
    PrintableOfPlain(certificate);
    var pem := CertificateToPEM(certificate).value;
    assert pem[|Header|..|pem| - |Footer|] == Join(lines, '\n');
    assert forall i :: 0 <= i < |lines| ==> '\n' !in lines[i] by {
      forall i | 0 <= i < |lines|
        ensures '\n' !in lines[i]
      {
        assert NoTerminator(lines[i]);
      }
    }
    SplitJoin(lines, '\n');
  }

  /** Round trip: unwrapping the PEM of a base64 certificate gives the certificate back. */
  lemma PemRoundTrip(certificate: string)
    requires |certificate| > 0 && NoTerminator(certificate)
    ensures CertificateToPEM(certificate).Some?
    ensures PemToCertificate(CertificateToPEM(certificate).value) == Some(certificate)
  {
    var lines := MatchLines(certificate);
    MatchLinesOfPlain(certificate);
    PrintableOfPlain(certificate);
    var pem := CertificateToPEM(certificate).value;
    assert pem[|Header|..|pem| - |Footer|] == Join(lines, '\n');
    assert forall i :: 0 <= i < |lines| ==> '\n' !in lines[i] by {
      forall i | 0 <= i < |lines|
        ensures '\n' !in lines[i]
      {
        assert NoTerminator(lines[i]);
      }
    }
    RemoveSeparatorFromJoin(lines, '\n');
  }
}

=== FILE: strings.dfy ===
/** String helpers with the semantics of the JavaScript built-ins the authorizer uses. */
module Strings {

  /** ASCII case folding of one character (`'A'..'Z'` to `'a'..'z'`). */
  function LowerChar(c: char): (r: char)
    ensures 'A' <= c <= 'Z' ==> 'a' <= r <= 'z' && r as int - c as int == 32
    ensures !('A' <= c <= 'Z') ==> r == c
  {
    if 'A' <= c <= 'Z' then (c as int + 32) as char else c
  }

  /** `String.prototype.toLowerCase`, restricted to ASCII folding. */
  function ToLower(s: string): (r: string)
    ensures |r| == |s|
    ensures forall i :: 0 <= i < |s| ==> r[i] == LowerChar(s[i])
  {
    seq(|s|, i requires 0 <= i < |s| => LowerChar(s[i]))
  }

  /** Folding leaves no ASCII capital behind, so folding twice changes nothing. */
  lemma ToLowerIdempotent(s: string)
    ensures forall i :: 0 <= i < |s| ==> !('A' <= ToLower(s)[i] <= 'Z')
    ensures ToLower(ToLower(s)) == ToLower(s)
  {
  }

  predicate StartsWith(s: string, prefix: string) {
    |prefix| <= |s| && s[..|prefix|] == prefix
  }

  /** Index of the first occurrence of `c` in `s`. */
  function IndexOf(s: string, c: char): (i: nat)
    requires c in s
    ensures i < |s| && s[i] == c
    ensures c !in s[..i]
  {
    if s[0] == c then 0 else 1 + IndexOf(s[1..], c)
  }

  /** `Array.prototype.join`: the fields with `sep` between consecutive ones. */
  function Join(fields: seq<string>, sep: char): (r: string)
    ensures |fields| == 0 ==> r == []
    ensures |fields| > 0 ==> |r| == |Concat(fields)| + |fields| - 1
    ensures |fields| > 0 ==> r[..|fields[0]|] == fields[0]
  {
    if |fields| == 0 then []
    else if |fields| == 1 then fields[0]
    else fields[0] + [sep] + Join(fields[1..], sep)
  }

  /** `String.prototype.split` on a one-character separator. */
  function Split(s: string, sep: char): (fields: seq<string>)
    ensures |fields| >= 1
    ensures forall i :: 0 <= i < |fields| ==> sep !in fields[i]
    ensures Join(fields, sep) == s
    decreases |s|
  {
    if sep in s then
      var i := IndexOf(s, sep);
      var rest := Split(s[i + 1..], sep);
      assert s == s[..i] + [sep] + s[i + 1..];
      [s[..i]] + rest
    else
      [s]
  }

  /** The first field of a split is the text before the first separator, or all of it. */
  lemma SplitHead(s: string, sep: char)
    ensures sep in s ==> Split(s, sep)[0] == s[..IndexOf(s, sep)]
    ensures sep !in s ==> Split(s, sep) == [s]
  {
  }

  /** The first separator after a separator-free prefix sits right after it. */
  lemma {:induction false} IndexOfAfterPrefix(a: string, sep: char, rest: string)
    requires sep !in a
    ensures IndexOf(a + [sep] + rest, sep) == |a|
    decreases |a|
  {
    if |a| > 0 {
      assert (a + [sep] + rest)[1..] == a[1..] + [sep] + rest;
      IndexOfAfterPrefix(a[1..], sep, rest);
    }
  }

  /** Splitting at the first separator: the separator-free prefix is the first field. */
  lemma SplitAfterPrefix(a: string, sep: char, rest: string)
    requires sep !in a
    ensures Split(a + [sep] + rest, sep) == [a] + Split(rest, sep)
  {
    var s := a + [sep] + rest;
    IndexOfAfterPrefix(a, sep, rest);
    assert s[..|a|] == a;
    assert s[|a| + 1..] == rest;
  }

  /** Splitting a join of separator-free fields gives the fields back. */
  lemma {:induction false} SplitJoin(fields: seq<string>, sep: char)
    requires |fields| >= 1
    requires forall i :: 0 <= i < |fields| ==> sep !in fields[i]
    ensures Split(Join(fields, sep), sep) == fields
    decreases |fields|
  {
    if |fields| > 1 {
      var f0 := fields[0];
      var rest := Join(fields[1..], sep);
      var s := Join(fields, sep);
      assert s == f0 + [sep] + rest;
      assert s[|f0|] == sep;
      IndexOfAfterPrefix(f0, sep, rest);
      var i := IndexOf(s, sep);
      assert s[..i] == f0;
      assert s[i + 1..] == rest;
      SplitJoin(fields[1..], sep);
      assert fields == [f0] + fields[1..];
    }
  }

  /** Concatenation of all fields, no separator. */
  function Concat(fields: seq<string>): string
  {
    if |fields| == 0 then [] else fields[0] + Concat(fields[1..])
  }

  /** `s` with every occurrence of `c` removed. */
  function RemoveAll(s: string, c: char): (r: string)
    ensures c !in r
    ensures |r| <= |s|
  {
    if |s| == 0 then []
    else (if s[0] == c then [] else [s[0]]) + RemoveAll(s[1..], c)
  }

  lemma {:induction false} RemoveAllAppend(a: string, b: string, c: char)
    ensures RemoveAll(a + b, c) == RemoveAll(a, c) + RemoveAll(b, c)
    decreases |a|
  {
    if |a| > 0 {
      assert (a + b)[1..] == a[1..] + b;
      RemoveAllAppend(a[1..], b, c);
    } else {
      assert a + b == b;
    }
  }

  lemma {:induction false} RemoveAllAbsent(s: string, c: char)
    requires c !in s
    ensures RemoveAll(s, c) == s
    decreases |s|
  {
    if |s| > 0 {
      RemoveAllAbsent(s[1..], c);
      assert s == [s[0]] + s[1..];
    }
  }

  /** Removing the separator from a join of separator-free fields concatenates them. */
  lemma {:induction false} RemoveSeparatorFromJoin(fields: seq<string>, sep: char)
    requires forall i :: 0 <= i < |fields| ==> sep !in fields[i]
    ensures RemoveAll(Join(fields, sep), sep) == Concat(fields)
    decreases |fields|
  {
    if |fields| == 1 {
      RemoveAllAbsent(fields[0], sep);
      assert Concat(fields) == fields[0] + Concat([]);
    } else if |fields| > 1 {
      var rest := Join(fields[1..], sep);
      RemoveAllAppend(fields[0] + [sep], rest, sep);
      RemoveAllAppend(fields[0], [sep], sep);
      RemoveAllAbsent(fields[0], sep);
      assert RemoveAll([sep], sep) == [];
      RemoveSeparatorFromJoin(fields[1..], sep);
    }
  }
}

=== FILE: todo.dfy ===
/** Todo items, the table that holds them, and the business-logic layer
    (`createTodo`, `getTodos`). */
module Todo {
  import opened Wrappers

  type UserId = string
  type TodoId = string

  datatype TodoItem = TodoItem(
    userId: UserId,
    todoId: TodoId,
    createdAt: string,
    name: string,
    dueDate: string,
    done: bool,
    attachmentUrl: Option<string>
  )

  datatype CreateTodoRequest = CreateTodoRequest(name: string, dueDate: string)

  /** The table: partition key `userId`, sort key `todoId`. */
  type Store = map<(UserId, TodoId), TodoItem>

  /** Every item is stored under its own key. */
  ghost predicate WellFormed(store: Store) {
    forall k :: k in store ==> store[k].userId == k.0 && store[k].todoId == k.1
  }

  /** The data layer's put: write the item under its key and hand it back. */
  function PutItem(store: Store, item: TodoItem): (r: (Store, TodoItem))
    ensures r.1 == item
    ensures (item.userId, item.todoId) in r.0 && r.0[(item.userId, item.todoId)] == item
    ensures forall k :: k in store && k != (item.userId, item.todoId) ==> k in r.0 && r.0[k] == store[k]
    ensures r.0.Keys == store.Keys + {(item.userId, item.todoId)}
  {
    (store[(item.userId, item.todoId) := item], item)
  }

  /** `createTodo`: the fresh id (`uuid.v4()`) and the clock value
      (`new Date().toISOString()`) are parameters. */
  function CreateTodo(store: Store, request: CreateTodoRequest, userId: UserId, todoId: TodoId, now: string)
    : (r: (Store, TodoItem))
    ensures r.1.userId == userId && r.1.todoId == todoId
    ensures r.1.createdAt == now
    ensures r.1.name == request.name && r.1.dueDate == request.dueDate
    ensures !r.1.done
    ensures r.1.attachmentUrl.None?
    ensures (userId, todoId) in r.0 && r.0[(userId, todoId)] == r.1
    ensures forall k :: k in store && k != (userId, todoId) ==> k in r.0 && r.0[k] == store[k]
    ensures r.0.Keys == store.Keys + {(userId, todoId)}
  {
    PutItem(store, TodoItem(userId, todoId, now, request.name, request.dueDate, false, None))
  }

  /** Creation keeps every item under its own key. */
  lemma CreateTodoPreservesWellFormed(store: Store, request: CreateTodoRequest, userId: UserId, todoId: TodoId, now: string)
    requires WellFormed(store)
    ensures WellFormed(CreateTodo(store, request, userId, todoId, now).0)
  {
  }

  /** The data layer's query on the partition key. Its `ScanIndexForward: false`
      ordering is left out, so the result is the set of the user's items. */
  function QueryByUser(store: Store, userId: UserId): (items: set<TodoItem>)
    ensures forall it :: it in items <==> exists t :: (userId, t) in store && store[(userId, t)] == it
  {
    set k | k in store && k.0 == userId :: store[k]
  }

  /** `getTodos`: the user id goes to the data layer unchanged, its result comes back unchanged. */
  function GetTodos(store: Store, userId: UserId): (items: set<TodoItem>)
    ensures forall it :: it in items <==> exists t :: (userId, t) in store && store[(userId, t)] == it
    ensures WellFormed(store) ==> forall it :: it in items ==> it.userId == userId
  {
    QueryByUser(store, userId)
  }

  /** A created item is listed for its owner and for nobody else. */
  lemma CreatedItemListedOnlyForOwner(
    store: Store, request: CreateTodoRequest, owner: UserId, todoId: TodoId, now: string, other: UserId)
    requires WellFormed(store)
    requires other != owner
    ensures
      var (store', item) := CreateTodo(store, request, owner, todoId, now);
      item in GetTodos(store', owner) && item !in GetTodos(store', other)
  {
    var (store', item) := CreateTodo(store, request, owner, todoId, now);
    CreateTodoPreservesWellFormed(store, request, owner, todoId, now);
    assert store'[(owner, todoId)] == item;
  }
}

=== FILE: wrappers.dfy ===
/** Failure-compatible result types used throughout the model. */
module Wrappers {

  /** A value that may be absent: JavaScript's `null`/`undefined` versus a present value. */
  datatype Option<+T> = None | Some(value: T) {
    predicate IsFailure() { None? }

    function PropagateFailure<U>(): Option<U>
      requires None?
    {
      None
    }

    function Extract(): T
      requires Some?
    {
      value
    }
  }

  /** Either a value or the reason an exception was thrown. */
  datatype Result<+R, +E> = Success(value: R) | Failure(error: E) {
    predicate IsFailure() { Failure? }

    function PropagateFailure<U>(): Result<U, E>
      requires Failure?
    {
      Failure(error)
    }

    function Extract(): R
      requires Success?
    {
      value
    }
  }
}
